=== FILE: README.md ===
# Employee/project assignment backend — a Dafny model

This project models the part of the Express/MySQL backend (`app.js`) that has logic of its own. It covers three pieces:

- **Project input validation.** `POST /projetos` and `PUT /projetos/:id` check `nome` and then `descricao` in that order. A rejected body gets a 400 and does not touch the store.
- **The assignment relation as a state machine.** The store holds three tables: `Funcionarios`, `Projetos` and the join table `FuncionarioProjeto`. Four handlers change it:
  - assign (`POST /atribuir-funcionario`), which creates the pair only if it is absent;
  - unassign (`DELETE /atribuir-funcionario/:id_f/:id_p`), which deletes the pair only if it is present;
  - employee deletion (`DELETE /funcionarios/:id`), a transaction that also deletes the employee's join rows;
  - project deletion (`DELETE /projetos/:id`), a transaction that also deletes the project's join rows and rolls back as a whole.
- **The aggregate view.** `GET /projetos-com-funcionarios` runs a left join, then `reduce` folds the rows into one group per project and `Object.values` lists the groups.

Each handler is a pure function from the store before the request to a `Response(status, after)`. Store failures are inputs to these functions (a fault value saying which statement the database refuses). A failure that the handler answers with `res.status(500)` becomes `ServerError`. A failure that is `throw`n from a callback becomes `Crashed`: the process ends and no reply is sent.

Modules, one per component:

| file | module | models |
|---|---|---|
| common.dfy | `Common` | `Option`, the request `Status` |
| validation.dfy | `Validation` | JavaScript field values, truthiness, `String.length`, the two-field check |
| database.dfy | `Database` | the three tables; `SELECT`/`DELETE ... WHERE` on the join table |
| handlers.dfy | `Handlers` | the six handlers that change the store, with their invariants |
| keys.dfy | `Keys` | the ascending key order of `Object.values` |
| grouping.dfy | `Grouping` | the `reduce` over join rows and its reference definitions |
| aggregate.dfy | `Aggregate` | the left join over a store, and the view after the handlers run |

Points where the model follows the code's actual behaviour rather than a plausible reading of the endpoints:

- **Group order.** The response order comes from `Object.values`, which lists integer keys in ascending order, not from the order in which the rows first mention each project. The two orders agree on rows ordered by `p.id`, which the query asks for (`OrderedRowsKeepFirstSeenOrder`). They can differ when rows come out of id order (`UnorderedRowsComeBackAscending`).
- **Existence checks on assignment.** Assigning does not check that the employee or the project exists, so the model does not either. A join row whose employee is missing shows NULL employee columns, and the grouping skips it.
- **Failures in employee deletion.** A failed employee deletion gets no reply. The code rolls back and then rethrows, so the result is `Crashed` with the store unchanged, unlike project deletion, which answers 500.
- **Deleting a missing id.** Deleting an employee or project id that is not stored still succeeds. No handler checks that the row exists.
- **Employee id 0.** `if (funcionario_id)` treats id 0 as missing, just like NULL.

## Model

| member | source | states |
|---|---|---|
| Validation.Utf16LengthOfChar | app.js:184-185 | A single character counts one code unit, or two when it lies above U+FFFF (a surrogate pair) |
| Validation.Utf16LengthAppend | app.js:184-185 | The count of a concatenation is the sum of the counts. With the one-character rule, this fixes `.length` on every string |
| Validation.Utf16Length | app.js:184-185 | `.length` counts UTF-16 code units. It lies between the character count and twice that, is 0 only for the empty string, and equals the character count when no character is above U+FFFF |
| Validation.ValidateProject | app.js:181-204 | The body is accepted iff `nome` is a string of length 5..45 and `descricao` is a string of length 10..100. A bad `nome` always gives the name error, even when `descricao` is also bad. A good `nome` with a bad `descricao` gives the description error |
| Validation.GuardIsLengthRule | app.js:181-186 | For a positive lower bound, the code's four-way guard (falsy, not a string, too short, too long) rejects exactly the values that break the length rule |
| Validation.ShortNameRejected | app.js:181-190 | A three-character name is refused with the name error, whatever the description |
| Validation.ValidBodyAccepted | app.js:181-204 | A six-character name with a ten-character description is accepted |
| Handlers.CreateProject | app.js:177-210 | The status is 400 iff the length rule fails, and any status other than success leaves the store unchanged. The handler never answers 500: it crashes iff the body is valid and the insert fails or its key is taken. Success happens iff the body is valid and the insert succeeds on a free key. It adds exactly the new project and leaves the other projects, the employees and the join table untouched |
| Handlers.UpdateProject | app.js:235-273 | Same 400 rule as POST, and a rejection leaves the store unchanged. The handler never answers 500: it crashes iff the body is valid and the update fails, and then the store is unchanged. Success rewrites only the named project (when it exists) and leaves the key set, the other projects, the employees and the join table as they were |
| Handlers.SameRuleForCreateAndUpdate | app.js:177-273 | POST and PUT refuse exactly the same bodies, and a refused body changes nothing in either handler |
| Handlers.DeleteEmployee | app.js:117-161 | Success happens iff no step fails, and any failure gives `Crashed` with the pre-state (rollback, then rethrow). After success, the employee and all its join rows are gone. Every other employee, every project, and the count of every join row of another employee is unchanged |
| Handlers.DeleteProject | app.js:278-329 | A missing id gives 400 and changes nothing. A failure at begin, at either delete, or at commit gives 500 with the pre-state. After success, the project and all its join rows are gone, and the other projects, all employees and the join rows of other projects are unchanged |
| Handlers.CreateAssignment | app.js:345-383 | The result is 400 iff the lookup runs and finds the pair, and success happens iff nothing fails and the pair is absent. The result is 500 iff the lookup fails, or the insert fails for an absent pair. The handler never crashes. Anything but success leaves the store unchanged. Success adds exactly one copy of the pair, appended after the existing rows, and does not touch the employees or projects |
| Handlers.DeleteAssignment | app.js:388-426 | A failed lookup gives 500 and changes nothing. The result is 400 iff the lookup runs and the pair is absent. It crashes iff the delete of a present pair fails, and then changes nothing. Success removes every copy of the pair, keeps the count of every other pair, and leaves the employees and projects alone |
| Handlers.DeleteAssignmentAsWritten | app.js:388-426 | The handler as written never answers 500. It crashes iff the lookup fails, or the delete of a present pair fails. It answers 400 iff the lookup runs and the pair is absent. Anything but success leaves the store unchanged, and success removes every copy of the pair and keeps every other row |
| Handlers.AsWrittenAgreesAfterLookup | app.js:404-424 | Once the lookup succeeds, the handler as written and the corrected one give the same reply and the same store |
| Handlers.LookupFailureCrashesAsWritten | app.js:396-402 | On a lookup failure the code as written crashes where the intended reply is a 500. The store is unchanged either way |
| Handlers.CreateAssignmentTwice | app.js:354-381 | Assigning an absent pair succeeds, and assigning it again is refused with the store unchanged. The pair is then stored exactly once |
| Handlers.EntityHandlersPreserveNoDuplicates | app.js:117-329 | The project and employee handlers keep the join table free of duplicate pairs |
| Handlers.CreateAssignmentPreservesNoDuplicates | app.js:354-381 | Assigning keeps the join table free of duplicate pairs |
| Handlers.DeleteAssignmentPreservesNoDuplicates | app.js:396-423 | Unassigning keeps the join table free of duplicate pairs |
| Handlers.DeleteAssignmentRemovesOneRow | app.js:404-423 | On a duplicate-free table, a successful unassignment removes exactly one row, namely the pair |
| Database.Select | app.js:349-354 | The lookup returns every matching row with its multiplicity, and only matching rows |
| Database.Delete | app.js:413-415 | The delete removes every matching row and keeps every other row with its multiplicity |
| Database.SelectNonEmpty | app.js:360 | The lookup finds something iff some stored row matches |
| Database.SelectPair | app.js:360-365 | The duplicate check fires iff the pair is stored |
| Database.DeletePreservesNoDuplicates | app.js:413-415 | A delete never creates a duplicate |
| Keys.SortedKeys | app.js:514 | The integer keys of the accumulator are listed in strictly ascending order, each exactly once |
| Keys.AscendingUnique | app.js:514 | Two strictly ascending listings of the same keys are equal, so the enumeration order is determined by the key set |
| Grouping.StepAt | app.js:477-495 | One reducer step creates the row's group only if the id is new, appends the row's employee only if the id is truthy, and leaves every other key alone |
| Grouping.ReduceAt | app.js:466-501 | From any accumulator, the fold keeps every existing group and extends its list with that project's employees in row order. Every new id gets a group named after its first row |
| Grouping.ReduceFromEmpty | app.js:466-501 | From `{}`, the keys are exactly the project ids of the rows, and each group is the reference group of that id |
| Grouping.ValuesAscending | app.js:514 | `Object.values` of a well-keyed accumulator lists each group once, in ascending id order |
| Grouping.ProjectsWithEmployees | app.js:466-514 | The response has one group per distinct project id, with no repeats and ascending ids. Each group has the name of its project's first row, and its employees are the project's rows with a truthy employee id, in row order |
| Grouping.NoMembersWithoutEmployees | app.js:493-495 | A project whose rows carry no truthy employee id has an empty reference member list |
| Grouping.EmployeelessProjectHasEmptyGroup | app.js:466-514 | A project that appears in the rows but whose rows carry no truthy employee id is not dropped from the response. It has a group there, with an empty list |
| Grouping.FirstSeenListsIds | app.js:477-483 | First-appearance order lists exactly the project ids of the rows |
| Grouping.FirstSeenAscending | app.js:442 | On rows ordered by project id, first-appearance order is ascending |
| Grouping.GroupIdsAreSortedIds | app.js:514 | Whatever the row order, the response lists the ids in ascending order |
| Grouping.OrderedRowsKeepFirstSeenOrder | app.js:442-514 | On rows ordered by project id, the response lists projects in the order in which they first appear |
| Grouping.UnorderedRowsComeBackAscending | app.js:466-514 | For any two rows whose ids come in descending order, first appearance lists the ids in row order, but the response lists them in ascending order |
| Aggregate.AggregateView | app.js:432-516 | On any store, the view has one group per stored project, ascending by id. Each group carries the stored name and exactly the stored employees with a non-zero id that have a join row for the project, in join-table order |
| Aggregate.JoinProjectsMembers | app.js:440-441 | The left join shows each project's assigned stored employees and nobody else's |
| Aggregate.ViewShowsOnlyAssignedEmployees | app.js:432-516 | Every employee the view shows is stored and assigned to that group's project |
| Aggregate.DeletedEmployeeLeavesView | app.js:117-161 | Deleting an employee keeps every project in the view. After success the employee appears in no group |
| Aggregate.AppendedRowJoinsView | app.js:432-514 | One more join row for a stored employee with a non-zero id keeps the list of groups. It appends that employee to the project's group and leaves every other group as it was |
| Aggregate.AssignmentJoinsView | app.js:345-383 | Assigning a stored employee with a non-zero id appends that employee to its project's group. Every other group is unchanged |
| Aggregate.AssignThenDeleteEmployee | app.js:117-516 | Assign an employee to an empty project, then delete the employee. The project first shows just that employee, then an empty list, and it is listed throughout |

## Findings

| source | as written | input that shows it | evidently intended | confidence | as-written member | corrected member |
|---|---|---|---|---|---|---|
| app.js:396-402 | The unassign handler logs `results.length` (line 398) before it tests `err` | The lookup query fails. `results` is then undefined, so reading its length throws a TypeError and no reply is sent | Answer 500 "Erro ao verificar destituição." (lines 399-402) with the store unchanged | not executed; high: the 500 branch after the log is unreachable | Handlers.DeleteAssignmentAsWritten | Handlers.DeleteAssignment |

## Left out

- Express, CORS, body-parser, dotenv, the MySQL connection and `app.listen` (app.js:9-50, 523-525): framework and I/O plumbing.
- Listing and get-by-id routes, and `POST`/`PUT /funcionarios`, `GET /projetos`, `GET /atribuir-funcionario` (app.js:58-112, 167-172, 215-230, 335-340): each is one SQL statement with no logic beyond a 404 on an empty result. For that reason the status enum has no 404.
- Concurrency: every request is one atomic transition. The race between two identical assignment requests that both pass the lookup (app.js:354-373) is therefore not modelled.
- Response message texts and console logging: outcomes are the `Status` enum.
- Body columns other than `nome` and `descricao` (the dates, any extra field the body carries): inserts and updates store only the name and description.
- Ids are natural numbers. Negative ids, ids of 2^32−1 or more (which `Object.values` would not enumerate in numeric order), non-numeric path parameters and MySQL's string-to-number coercion are not modelled.
- JavaScript numbers in a project body are integers here (no NaN or fractions). This does not change the project validation verdict, since every non-string `nome` or `descricao` is refused.
- Table names are treated as case-insensitive. The cascade deletes write `funcionarioprojeto` and `projetos` (app.js:126, 295, 306), while the lookups and the join write `FuncionarioProjeto` and `Projetos` (app.js:350, 393, 439-440). On a server with case-sensitive table names, one of the two spellings would fail. That failure is not modelled.
- Validation.Utf16Length: strings are sequences of Unicode scalar values. A JSON string holding a lone surrogate (such as `"\ud800abcd"`, JavaScript length 5) cannot be written as a model input.
- Handlers.CreateAssignment: the ids are present natural numbers. The handler checks neither field of the body (app.js:346). A missing id reaches the lookup as NULL, and `= NULL` matches nothing. A fractional id matches no integer key. In either case the duplicate check at line 360 does not fire, and a second copy of a pair can be inserted if the database accepts the value. The no-duplicate guarantees (`CreateAssignmentTwice`, `CreateAssignmentPreservesNoDuplicates`) hold for present, integral ids only.
- The database's generated key for a new project is a parameter (`newId`). A taken key makes the insert fail.
- The aggregate query's own failure (a 500, app.js:446-449) is not modelled. The view is a function of the store.
- SQL does not fix the order of join rows within one project. The model takes join-table order.
- Handlers.DeleteProject: `None` stands for a missing `:id`. Express routing never produces an empty path parameter, so this 400 branch is modelled but cannot be reached through the route.
- A failed commit is treated as rolled back (pre-state), as the handlers' rollback calls intend. The database's exact behaviour on a failed COMMIT is not modelled.
- The stray `db.rollback` outside a transaction in the unassign handler (app.js:417-420) is treated as the generic `Crashed` outcome with the store unchanged.
- All of script.js, the browser page: DOM templating, `fetch` calls, and `formatDateToYYYYMMDD`, which depends on JavaScript date parsing and the local time zone.

=== FILE: aggregate.dfy ===
/** The aggregate view of a store: the left join of Projetos with
    FuncionarioProjeto and Funcionarios, ordered by project id, folded into
    groups. Within one project the join rows follow join-table order. */
module Aggregate {
  import opened Common
  import opened Database
  import opened Keys
  import opened Grouping
  import opened Handlers

  /** The join row of one FuncionarioProjeto row of project `k`: the employee
      columns are NULL when the row's employee is not in Funcionarios. */
  function JoinRow(s: Store, k: Id, name: string, a: Assignment): Row {
    if a.employee in s.employees then Row(k, name, Some(a.employee), Some(s.employees[a.employee].name))
    else Row(k, name, None, None)
  }

  function LinkRows(s: Store, k: Id, name: string, links: seq<Assignment>): seq<Row> {
    if links == [] then []
    else [JoinRow(s, k, name, links[0])] + LinkRows(s, k, name, links[1..])
  }

  /** The rows of one project: one per join row, or one all-NULL row when it has none. */
  function ProjectRows(s: Store, k: Id): seq<Row>
    requires k in s.projects
  {
    var links := Select(s.assignments, ByProject(k));
    if links == [] then [Row(k, s.projects[k].name, None, None)]
    else LinkRows(s, k, s.projects[k].name, links)
  }

  function JoinProjects(s: Store, ids: seq<Id>): seq<Row>
    requires forall i :: 0 <= i < |ids| ==> ids[i] in s.projects
  {
    if ids == [] then []
    else ProjectRows(s, ids[0]) + JoinProjects(s, ids[1..])
  }

  /** The result set of the aggregate query. */
  function JoinRows(s: Store): seq<Row> {
    JoinProjects(s, SortedKeys(s.projects.Keys))
  }

  /** Reference: the employees project `k` should show, in join-table order: the
      stored employees with a join row for `k` (an id of 0 is falsy and dropped). */
  function AssignedMembers(employees: map<Id, Employee>, links: seq<Assignment>, k: Id): seq<Member> {
    if links == [] then []
    else
      var a := links[0];
      (if a.project == k && a.employee in employees && a.employee != 0
       then [Member(a.employee, Some(employees[a.employee].name))] else [])
      + AssignedMembers(employees, links[1..], k)
  }

  lemma {:induction false} AssignedMembersAppend(employees: map<Id, Employee>, a: seq<Assignment>, b: seq<Assignment>, k: Id)
    ensures AssignedMembers(employees, a + b, k) == AssignedMembers(employees, a, k) + AssignedMembers(employees, b, k)
    decreases |a|
  {
    if a == [] {
      assert a + b == b;
    } else {
      assert (a + b)[0] == a[0];
      assert (a + b)[1..] == a[1..] + b;
      AssignedMembersAppend(employees, a[1..], b, k);
    }
  }

  lemma AssignedMembersOfOne(employees: map<Id, Employee>, a: Assignment, k: Id)
    ensures AssignedMembers(employees, [a], k)
            == if a.project == k && a.employee in employees && a.employee != 0
               then [Member(a.employee, Some(employees[a.employee].name))] else []
  {
    assert [a][1..] == [];
  }

  /** Every member the reference lists is a stored employee assigned to `k`. */
  lemma {:induction false} AssignedMembersAreAssigned(employees: map<Id, Employee>, links: seq<Assignment>, k: Id)
    ensures forall m :: m in AssignedMembers(employees, links, k) ==>
              m.id != 0 && m.id in employees && Assignment(m.id, k) in links
    decreases |links|
  {
    if links != [] {
      AssignedMembersAreAssigned(employees, links[1..], k);
    }
  }

  /** Selecting the project's join rows first changes nothing. */
  lemma {:induction false} AssignedMembersOfSelection(employees: map<Id, Employee>, links: seq<Assignment>, k: Id)
    ensures AssignedMembers(employees, Select(links, ByProject(k)), k) == AssignedMembers(employees, links, k)
    decreases |links|
  {
    if links != [] {
      var head := if Matches(ByProject(k), links[0]) then [links[0]] else [];
      AssignedMembersOfSelection(employees, links[1..], k);
      AssignedMembersAppend(employees, head, Select(links[1..], ByProject(k)), k);
    }
  }

  lemma {:induction false} MembersOfAppend(a: seq<Row>, b: seq<Row>, k: Id)
    ensures MembersOf(a + b, k) == MembersOf(a, k) + MembersOf(b, k)
    decreases |a|
  {
    if a == [] {
      assert a + b == b;
    } else {
      assert (a + b)[0] == a[0];
      assert (a + b)[1..] == a[1..] + b;
      MembersOfAppend(a[1..], b, k);
    }
  }

  /** The join rows of a project's links show exactly its assigned employees. */
  lemma {:induction false} LinkRowsMembers(s: Store, k: Id, name: string, links: seq<Assignment>)
    requires forall i :: 0 <= i < |links| ==> links[i].project == k
    ensures MembersOf(LinkRows(s, k, name, links), k) == AssignedMembers(s.employees, links, k)
    ensures forall j :: j != k ==> MembersOf(LinkRows(s, k, name, links), j) == []
    ensures forall i :: 0 <= i < |LinkRows(s, k, name, links)| ==>
              LinkRows(s, k, name, links)[i].projectId == k && LinkRows(s, k, name, links)[i].projectName == name
    decreases |links|
  {
    if links != [] {
      LinkRowsMembers(s, k, name, links[1..]);
    }
  }

  /** What the rows of one project contribute. */
  lemma ProjectRowsFacts(s: Store, k: Id)
    requires k in s.projects
    ensures ProjectRows(s, k) != []
    ensures forall i :: 0 <= i < |ProjectRows(s, k)| ==>
              ProjectRows(s, k)[i].projectId == k && ProjectRows(s, k)[i].projectName == s.projects[k].name
    ensures MembersOf(ProjectRows(s, k), k) == AssignedMembers(s.employees, s.assignments, k)
    ensures forall j :: j != k ==> MembersOf(ProjectRows(s, k), j) == []
  {
    var links := Select(s.assignments, ByProject(k));
    AssignedMembersOfSelection(s.employees, s.assignments, k);
    if links == [] {
      assert AssignedMembers(s.employees, links, k) == [];
    } else {
      LinkRowsMembers(s, k, s.projects[k].name, links);
    }
  }

  /** The projects the rows of a list of projects mention. */
  lemma {:induction false} JoinProjectsIds(s: Store, ids: seq<Id>)
    requires forall i :: 0 <= i < |ids| ==> ids[i] in s.projects
    ensures forall k :: k in ProjectIds(JoinProjects(s, ids)) <==> k in ids
    decreases |ids|
  {
    if ids != [] {
      var head := ProjectRows(s, ids[0]);
      var tail := JoinProjects(s, ids[1..]);
      ProjectRowsFacts(s, ids[0]);
      JoinProjectsIds(s, ids[1..]);
      assert ProjectIds(head) == {ids[0]} by {
        assert head[0] in head;
      }
      assert ProjectIds(head + tail) == ProjectIds(head) + ProjectIds(tail);
      assert ids == [ids[0]] + ids[1..];
    }
  }

  /** Every row carries the stored name of its project. */
  lemma {:induction false} JoinProjectsNames(s: Store, ids: seq<Id>)
    requires forall i :: 0 <= i < |ids| ==> ids[i] in s.projects
    ensures forall r :: r in JoinProjects(s, ids) ==>
              r.projectId in s.projects && r.projectName == s.projects[r.projectId].name
    decreases |ids|
  {
    if ids != [] {
      ProjectRowsFacts(s, ids[0]);
      JoinProjectsNames(s, ids[1..]);
      forall r | r in ProjectRows(s, ids[0])
        ensures r.projectId in s.projects && r.projectName == s.projects[r.projectId].name {
        var i :| 0 <= i < |ProjectRows(s, ids[0])| && ProjectRows(s, ids[0])[i] == r;
      }
    }
  }

  /** The rows of a list of distinct projects show each one's assigned employees. */
  lemma {:induction false} JoinProjectsMembers(s: Store, ids: seq<Id>)
    requires forall i :: 0 <= i < |ids| ==> ids[i] in s.projects
    requires Ascending(ids)
    ensures forall k :: k in ids ==> MembersOf(JoinProjects(s, ids), k) == AssignedMembers(s.employees, s.assignments, k)
    decreases |ids|
  {
    if ids != [] {
      var k := ids[0];
      var head := ProjectRows(s, k);
      var tail := JoinProjects(s, ids[1..]);
      ProjectRowsFacts(s, k);
      JoinProjectsMembers(s, ids[1..]);
      forall j | j in ids ensures MembersOf(head + tail, j) == AssignedMembers(s.employees, s.assignments, j) {
        MembersOfAppend(head, tail, j);
        if j == k {
          forall i | 0 <= i < |ids[1..]| ensures ids[1..][i] != k {
            assert ids[1..][i] == ids[i + 1];
            assert ids[0] < ids[i + 1];
          }
          JoinProjectsIds(s, ids[1..]);
          TailWithoutProject(tail, k);
        } else {
          assert j in ids[1..];
        }
      }
    }
  }

  /** Rows that never mention `k` show no members for it. */
  lemma {:induction false} TailWithoutProject(rows: seq<Row>, k: Id)
    requires k !in ProjectIds(rows)
    ensures MembersOf(rows, k) == []
    decreases |rows|
  {
    if rows != [] {
      assert rows[0] in rows;
      assert ProjectIds(rows[1..]) <= ProjectIds(rows);
      TailWithoutProject(rows[1..], k);
    }
  }

  /** The name on the first row of a project is the name of one of its rows. */
  lemma {:induction false} FirstNameIsARowName(rows: seq<Row>, k: Id)
    requires k in ProjectIds(rows)
    ensures exists i :: 0 <= i < |rows| && rows[i].projectId == k && rows[i].projectName == FirstName(rows, k)
    decreases |rows|
  {
    if rows[0].projectId != k {
      assert k in ProjectIds(rows[1..]) by {
        var r :| r in rows && r.projectId == k;
        var i :| 0 <= i < |rows| && rows[i] == r;
        assert rows[1..][i - 1] == r;
      }
      FirstNameIsARowName(rows[1..], k);
      var i :| 0 <= i < |rows[1..]| && rows[1..][i].projectId == k && rows[1..][i].projectName == FirstName(rows, k);
      assert rows[i + 1] == rows[1..][i];
    }
  }

  /** The join mentions exactly the stored projects. */
  lemma JoinMentionsProjects(s: Store)
    ensures ProjectIds(JoinRows(s)) == s.projects.Keys
  {
    JoinProjectsIds(s, SortedKeys(s.projects.Keys));
  }

  /** The groups of the join come in ascending order of the stored project ids. */
  lemma GroupIdsOfJoin(s: Store)
    ensures GroupIds(ProjectsWithEmployees(JoinRows(s))) == SortedKeys(s.projects.Keys)
  {
    JoinMentionsProjects(s);
    GroupIdsAreSortedIds(JoinRows(s));
  }

  /** Each group of the join carries its project's stored name and assigned employees. */
  lemma GroupContentsOfJoin(s: Store)
    ensures var groups := ProjectsWithEmployees(JoinRows(s));
            forall i :: 0 <= i < |groups| ==>
              && groups[i].projectId in s.projects
              && groups[i].projectName == s.projects[groups[i].projectId].name
              && groups[i].members == AssignedMembers(s.employees, s.assignments, groups[i].projectId)
  {
    var ids := SortedKeys(s.projects.Keys);
    var rows := JoinRows(s);
    var groups := ProjectsWithEmployees(rows);
    JoinMentionsProjects(s);
    JoinProjectsNames(s, ids);
    JoinProjectsMembers(s, ids);
    forall i | 0 <= i < |groups|
      ensures groups[i].projectName == s.projects[groups[i].projectId].name {
      FirstNameIsARowName(rows, groups[i].projectId);
      var j :| 0 <= j < |rows| && rows[j].projectId == groups[i].projectId
               && rows[j].projectName == FirstName(rows, groups[i].projectId);
      assert rows[j] in rows;
    }
  }

  /** GET /projetos-com-funcionarios on a store: one group per stored project, in
      ascending id order, carrying the project's name and exactly the stored
      employees assigned to it, in join-table order. */
  function AggregateView(s: Store): (groups: seq<Group>)
    ensures GroupIds(groups) == SortedKeys(s.projects.Keys)
    ensures forall i :: 0 <= i < |groups| ==>
              && groups[i].projectId in s.projects
              && groups[i].projectName == s.projects[groups[i].projectId].name
              && groups[i].members == AssignedMembers(s.employees, s.assignments, groups[i].projectId)
  {
    GroupIdsOfJoin(s);
    GroupContentsOfJoin(s);
    ProjectsWithEmployees(JoinRows(s))
  }

  /** The view shows only stored employees, each under a project it is assigned to. */
  lemma ViewShowsOnlyAssignedEmployees(s: Store)
    ensures var view := AggregateView(s);
            forall i, m :: 0 <= i < |view| && m in view[i].members ==>
              m.id in s.employees && Assignment(m.id, view[i].projectId) in s.assignments
  {
    var view := AggregateView(s);
    forall i | 0 <= i < |view| {
      AssignedMembersAreAssigned(s.employees, s.assignments, view[i].projectId);
    }
  }

  /** A project whose join rows name no stored employee shows an empty list. */
  lemma {:induction false} NoAssignedEmployees(employees: map<Id, Employee>, links: seq<Assignment>, k: Id)
    requires forall i :: 0 <= i < |links| && links[i].project == k ==> links[i].employee !in employees
    ensures AssignedMembers(employees, links, k) == []
    decreases |links|
  {
    if links != [] {
      NoAssignedEmployees(employees, links[1..], k);
    }
  }

  /** After a successful DELETE /funcionarios/:id the view still lists every
      project and no longer shows the employee anywhere. */
  lemma DeletedEmployeeLeavesView(s: Store, id: Id, fault: TxFault)
    ensures var r := DeleteEmployee(s, id, fault);
            var view := AggregateView(r.after);
            && GroupIds(view) == GroupIds(AggregateView(s))
            && (r.status == Ok ==> forall i, m :: 0 <= i < |view| && m in view[i].members ==> m.id != id)
  {
    var r := DeleteEmployee(s, id, fault);
    assert r.after.projects == s.projects;
    if r.status == Ok {
      assert id !in r.after.employees;
      ViewShowsOnlyAssignedEmployees(r.after);
    }
  }

  /** A successful assignment appends its row to the join table. */
  lemma AssignmentAppends(s: Store, f: Id, p: Id)
    requires Assignment(f, p) !in s.assignments
    ensures CreateAssignment(s, f, p, QueryHealthy).after == s.(assignments := s.assignments + [Assignment(f, p)])
  {
    SelectPair(s.assignments, f, p);
  }

  /** Appending one join row for a stored employee with a non-zero id extends
      that project's reference list by the employee and no other list. */
  lemma AppendedRowMembers(employees: map<Id, Employee>, links: seq<Assignment>, f: Id, p: Id, k: Id)
    requires f in employees && f != 0
    ensures AssignedMembers(employees, links + [Assignment(f, p)], k)
            == AssignedMembers(employees, links, k)
               + (if k == p then [Member(f, Some(employees[f].name))] else [])
  {
    AssignedMembersOfOne(employees, Assignment(f, p), k);
    AssignedMembersAppend(employees, links, [Assignment(f, p)], k);
  }

  /** The group at one position of the view, before and after a join row for a
      stored employee with a non-zero id is appended. */
  lemma AppendedRowJoinsGroup(s: Store, t: Store, f: Id, p: Id, i: nat)
    requires f in s.employees && f != 0
    requires t.employees == s.employees && t.projects == s.projects
    requires t.assignments == s.assignments + [Assignment(f, p)]
    requires i < |s.projects|
    ensures i < |AggregateView(s)| && i < |AggregateView(t)|
    ensures AggregateView(t)[i].projectId == AggregateView(s)[i].projectId
    ensures AggregateView(t)[i].members == AggregateView(s)[i].members
              + (if AggregateView(t)[i].projectId == p then [Member(f, Some(s.employees[f].name))] else [])
  {
    var before := AggregateView(s);
    var after := AggregateView(t);
    assert GroupIds(after)[i] == GroupIds(before)[i];
    AppendedRowMembers(s.employees, s.assignments, f, p, after[i].projectId);
  }

  /** Appending a join row for a stored employee with a non-zero id adds that
      employee at the end of the project's group and nowhere else. */
  lemma AppendedRowJoinsView(s: Store, t: Store, f: Id, p: Id)
    requires f in s.employees && f != 0
    requires t.employees == s.employees && t.projects == s.projects
    requires t.assignments == s.assignments + [Assignment(f, p)]
    ensures var before := AggregateView(s);
            var after := AggregateView(t);
            && GroupIds(after) == GroupIds(before)
            && forall i :: 0 <= i < |after| ==>
                 after[i].members == before[i].members
                   + (if after[i].projectId == p then [Member(f, Some(s.employees[f].name))] else [])
  {
    assert |AggregateView(t)| == |GroupIds(AggregateView(t))| == |s.projects|;
    forall i: nat | i < |AggregateView(t)| {
      AppendedRowJoinsGroup(s, t, f, p, i);
    }
  }

  /** After a successful POST /atribuir-funcionario of a stored employee with a
      non-zero id, the project's group gains that employee at the end and every
      other group is unchanged. */
  lemma AssignmentJoinsView(s: Store, f: Id, p: Id)
    requires f in s.employees && f != 0
    requires Assignment(f, p) !in s.assignments
    ensures var before := AggregateView(s);
            var after := AggregateView(CreateAssignment(s, f, p, QueryHealthy).after);
            && GroupIds(after) == GroupIds(before)
            && forall i :: 0 <= i < |after| ==>
                 after[i].members == before[i].members
                   + (if after[i].projectId == p then [Member(f, Some(s.employees[f].name))] else [])
  {
    AssignmentAppends(s, f, p);
    AppendedRowJoinsView(s, CreateAssignment(s, f, p, QueryHealthy).after, f, p);
  }

  /** Every stored project is listed in the view. */
  lemma ViewListsProject(s: Store, p: Id)
    requires p in s.projects
    ensures p in GroupIds(AggregateView(s))
  {
  }

  /** The single employee joined to a project that had nobody is all it shows. */
  lemma JoiningEmptyProject(s: Store, e: Id, p: Id)
    requires e in s.employees && e != 0 && p in s.projects
    requires forall i :: 0 <= i < |s.assignments| ==> s.assignments[i].project != p
    ensures var v1 := AggregateView(s.(assignments := s.assignments + [Assignment(e, p)]));
            && p in GroupIds(v1)
            && forall i :: 0 <= i < |v1| && v1[i].projectId == p ==>
                 v1[i].members == [Member(e, Some(s.employees[e].name))]
  {
    var s1 := s.(assignments := s.assignments + [Assignment(e, p)]);
    NoAssignedEmployees(s.employees, s.assignments, p);
    AssignedMembersAppend(s.employees, s.assignments, [Assignment(e, p)], p);
    AssignedMembersOfOne(s.employees, Assignment(e, p), p);
    ViewListsProject(s1, p);
  }

  /** Once the employee is deleted, a project whose join rows all named that
      employee is still listed and shows nobody. */
  lemma DeletingOnlyEmployeeEmptiesProject(s1: Store, e: Id, p: Id)
    requires p in s1.projects
    requires forall i :: 0 <= i < |s1.assignments| && s1.assignments[i].project == p ==>
               s1.assignments[i].employee == e
    ensures var v2 := AggregateView(WithoutEmployee(s1, e));
            && p in GroupIds(v2)
            && forall i :: 0 <= i < |v2| && v2[i].projectId == p ==> v2[i].members == []
  {
    var s2 := WithoutEmployee(s1, e);
    forall i | 0 <= i < |s2.assignments| ensures s2.assignments[i].project != p {
      var a := s2.assignments[i];
      assert a in multiset(s2.assignments);
      assert multiset(s1.assignments)[a] == multiset(s2.assignments)[a];
      assert a in s1.assignments;
    }
    NoAssignedEmployees(s2.employees, s2.assignments, p);
    ViewListsProject(s2, p);
  }

  /** Appending a row to a table with no row for `p` makes it the only row for `p`. */
  lemma OnlyJoinRow(links: seq<Assignment>, e: Id, p: Id)
    requires forall i :: 0 <= i < |links| ==> links[i].project != p
    ensures var appended := links + [Assignment(e, p)];
            forall i :: 0 <= i < |appended| && appended[i].project == p ==> appended[i].employee == e
  {
    var appended := links + [Assignment(e, p)];
    assert forall i :: 0 <= i < |links| ==> appended[i] == links[i];
    assert appended[|links|] == Assignment(e, p);
  }

  /** Assign an employee to a project that has nobody, then delete the employee:
      the project first shows that one employee, then an empty list, and is
      listed throughout. */
  lemma AssignThenDeleteEmployee(s: Store, e: Id, p: Id)
    requires e in s.employees && e != 0 && p in s.projects
    requires forall i :: 0 <= i < |s.assignments| ==> s.assignments[i].project != p
    ensures var s1 := CreateAssignment(s, e, p, QueryHealthy).after;
            var s2 := DeleteEmployee(s1, e, TxHealthy).after;
            var v1 := AggregateView(s1);
            var v2 := AggregateView(s2);
            && p in GroupIds(v1) && p in GroupIds(v2)
            && (forall i :: 0 <= i < |v1| && v1[i].projectId == p ==>
                  v1[i].members == [Member(e, Some(s.employees[e].name))])
            && (forall i :: 0 <= i < |v2| && v2[i].projectId == p ==> v2[i].members == [])
  {
    assert Assignment(e, p) !in s.assignments;
    AssignmentAppends(s, e, p);
    var s1 := s.(assignments := s.assignments + [Assignment(e, p)]);
    JoiningEmptyProject(s, e, p);
    OnlyJoinRow(s.assignments, e, p);
    DeletingOnlyEmployeeEmptiesProject(s1, e, p);
  }
}

=== FILE: common.dfy ===
/** Small shared vocabulary of the model: optional values and request outcomes. */
module Common {

  /** A value that may be SQL NULL / JavaScript null. */
  datatype Option<+T> = None | Some(value: T)

  /** What a request handler leaves its client with.
      `ServerError` is an explicit 500 reply; `Crashed` is an error thrown out of a
      store callback, which ends the process without a reply. */
  datatype Status =
    | Ok           // 200 with a confirmation text or a JSON body
    | BadRequest   // 400: a validation error or an assignment conflict
    | ServerError  // 500: a store failure the handler reports
    | Crashed      // `throw err` inside a store callback
}

=== FILE: database.dfy ===
/** An in-memory picture of the three tables: Funcionarios, Projetos and the
    join table FuncionarioProjeto, with the two statements the handlers run on
    the join table (SELECT ... WHERE and DELETE ... WHERE). */
module Database {

  /** A generated primary key. */
  type Id = nat

  /** A Funcionarios row; only the name column matters to the model. */
  datatype Employee = Employee(name: string)

  /** A Projetos row; the date columns are not modelled. */
  datatype Project = Project(name: string, description: string)

  /** A FuncionarioProjeto row. The schema has no uniqueness constraint on the pair. */
  datatype Assignment = Assignment(employee: Id, project: Id)

  /** The whole database. The join table is a sequence in storage order, so it
      can hold the same pair twice if nothing prevents it. */
  datatype Store = Store(
    employees: map<Id, Employee>,
    projects: map<Id, Project>,
    assignments: seq<Assignment>)

  /** The WHERE clauses the handlers put on the join table. */
  datatype Where =
    | ByPair(employee: Id, project: Id)   // Funcionarios_id = ? AND Projetos_id = ?
    | ByEmployee(employee: Id)            // Funcionarios_id = ?
    | ByProject(project: Id)              // Projetos_id = ?

  predicate Matches(w: Where, a: Assignment) {
    match w
    case ByPair(f, p) => a.employee == f && a.project == p
    case ByEmployee(f) => a.employee == f
    case ByProject(p) => a.project == p
  }

  /** SELECT * FROM FuncionarioProjeto WHERE w: the matching rows, each with its multiplicity. */
  function Select(rows: seq<Assignment>, w: Where): (r: seq<Assignment>)
    ensures forall a :: multiset(r)[a] == if Matches(w, a) then multiset(rows)[a] else 0
    ensures forall i :: 0 <= i < |r| ==> Matches(w, r[i])
  {
    if rows == [] then []
    else
      assert rows == [rows[0]] + rows[1..];
      (if Matches(w, rows[0]) then [rows[0]] else []) + Select(rows[1..], w)
  }

  /** DELETE FROM FuncionarioProjeto WHERE w: every matching row goes, every
      other row stays with its multiplicity. */
  function Delete(rows: seq<Assignment>, w: Where): (r: seq<Assignment>)
    ensures forall a :: multiset(r)[a] == if Matches(w, a) then 0 else multiset(rows)[a]
    ensures forall i :: 0 <= i < |r| ==> !Matches(w, r[i])
  {
    if rows == [] then []
    else
      assert rows == [rows[0]] + rows[1..];
      (if Matches(w, rows[0]) then [] else [rows[0]]) + Delete(rows[1..], w)
  }

  /** The application-level invariant: no pair is stored twice. */
  ghost predicate NoDuplicates(rows: seq<Assignment>) {
    forall a :: multiset(rows)[a] <= 1
  }

  /** A query finds something exactly when some stored row matches it. */
  lemma SelectNonEmpty(rows: seq<Assignment>, w: Where)
    ensures |Select(rows, w)| > 0 <==> exists i :: 0 <= i < |rows| && Matches(w, rows[i])
  {
    var r := Select(rows, w);
    if |r| > 0 {
      assert r[0] in multiset(r);
      assert r[0] in rows;
    }
  }

  /** Looking a pair up is the same as asking whether the pair is stored. */
  lemma SelectPair(rows: seq<Assignment>, f: Id, p: Id)
    ensures |Select(rows, ByPair(f, p))| > 0 <==> Assignment(f, p) in rows
  {
    SelectNonEmpty(rows, ByPair(f, p));
    if Assignment(f, p) in rows {
      var i :| 0 <= i < |rows| && rows[i] == Assignment(f, p);
      assert Matches(ByPair(f, p), rows[i]);
    }
  }

  /** Deleting keeps the no-duplicate invariant. */
  lemma DeletePreservesNoDuplicates(rows: seq<Assignment>, w: Where)
    requires NoDuplicates(rows)
    ensures NoDuplicates(Delete(rows, w))
  {
    var r := Delete(rows, w);
    forall a ensures multiset(r)[a] <= 1 {
      assert multiset(rows)[a] <= 1;
    }
  }

  /** A table that held exactly one copy of `x` and loses every copy, keeping
      every other row, has lost exactly that one row. */
  lemma RemoveOnlyCopy(before: seq<Assignment>, after: seq<Assignment>, x: Assignment)
    requires multiset(before)[x] == 1 && x !in after
    requires forall a :: a != x ==> multiset(after)[a] == multiset(before)[a]
    ensures multiset(after) == multiset(before) - multiset{x}
    ensures |after| == |before| - 1
  {
    var m0, m1 := multiset(before), multiset(after);
    assert m1 == m0 - multiset{x} by {
      forall a ensures m1[a] == (m0 - multiset{x})[a] {
        if a == x {
          assert x !in m1;
        }
      }
    }
    assert |m1| == |m0| - 1;
  }
}

=== FILE: grouping.dfy ===
/** GET /projetos-com-funcionarios, after the query: the rows of the left join
    are folded into an object keyed by project id, and the object's values are
    sent. */
module Grouping {
  import opened Common
  import opened Database
  import opened Keys

  /** One row of the join: projeto_id, projeto_nome, funcionario_id, funcionario_nome.
      The employee columns are NULL when the project has no join row or the join
      row names no employee. */
  datatype Row = Row(projectId: Id, projectName: string, employeeId: Option<nat>, employeeName: Option<string>)

  /** `{ funcionario_id, funcionario_nome }` */
  datatype Member = Member(id: nat, name: Option<string>)

  /** `{ projeto_id, projeto_nome, funcionarios }` */
  datatype Group = Group(projectId: Id, projectName: string, members: seq<Member>)

  /** `if (funcionario_id)`: a NULL id and the id 0 are both falsy. */
  predicate HasEmployee(r: Row) {
    r.employeeId.Some? && r.employeeId.value != 0
  }

  function MemberOf(r: Row): Member
    requires HasEmployee(r)
  {
    Member(r.employeeId.value, r.employeeName)
  }

  /** The reducer: open a group the first time a project id is seen, then append
      the row's employee when there is one. */
  function Step(acc: map<Id, Group>, r: Row): map<Id, Group> {
    var withGroup := if r.projectId in acc then acc else acc[r.projectId := Group(r.projectId, r.projectName, [])];
    if HasEmployee(r) then
      withGroup[r.projectId := withGroup[r.projectId].(members := withGroup[r.projectId].members + [MemberOf(r)])]
    else withGroup
  }

  /** `rows.reduce(Step, acc)`: a left fold. */
  function Reduce(acc: map<Id, Group>, rows: seq<Row>): map<Id, Group>
    decreases |rows|
  {
    if rows == [] then acc else Reduce(Step(acc, rows[0]), rows[1..])
  }

  /** `Object.values(acc)`: integer keys are enumerated in ascending order. */
  function Values(acc: map<Id, Group>): seq<Group> {
    var keys := SortedKeys(acc.Keys);
    seq(|keys|, i requires 0 <= i < |keys| => acc[keys[i]])
  }

  /** Every group sits under its own project id, as the reducer files them. */
  predicate WellKeyed(acc: map<Id, Group>) {
    forall k :: k in acc ==> acc[k].projectId == k
  }

  /** `Object.values` lists the group of each key in key enumeration order. */
  lemma ValuesFollowKeys(acc: map<Id, Group>)
    requires WellKeyed(acc)
    ensures |Values(acc)| == |SortedKeys(acc.Keys)| == |acc.Keys|
    ensures forall i :: 0 <= i < |Values(acc)| ==>
              Values(acc)[i] == acc[SortedKeys(acc.Keys)[i]]
              && Values(acc)[i].projectId == SortedKeys(acc.Keys)[i]
  {
  }

  /** `Object.values` of a well-keyed accumulator lists each group once, in
      ascending id order. */
  lemma ValuesAscending(acc: map<Id, Group>)
    requires WellKeyed(acc)
    ensures |Values(acc)| == |acc.Keys|
    ensures forall i :: 0 <= i < |Values(acc)| ==>
              Values(acc)[i].projectId in acc && Values(acc)[i] == acc[Values(acc)[i].projectId]
    ensures forall k :: k in acc ==> exists i :: 0 <= i < |Values(acc)| && Values(acc)[i].projectId == k
    ensures forall i, j :: 0 <= i < j < |Values(acc)| ==> Values(acc)[i].projectId < Values(acc)[j].projectId
  {
    var keys := SortedKeys(acc.Keys);
    var vs := Values(acc);
    ValuesFollowKeys(acc);
    forall i | 0 <= i < |vs| ensures vs[i].projectId in acc {
      assert keys[i] in keys;
    }
    forall k | k in acc ensures exists i :: 0 <= i < |vs| && vs[i].projectId == k {
      var i :| 0 <= i < |keys| && keys[i] == k;
      assert vs[i].projectId == k;
    }
  }

  /** The project ids the rows mention. */
  function ProjectIds(rows: seq<Row>): set<Id> {
    set r | r in rows :: r.projectId
  }

  /** Reference: the employees of project `k`, in row order, skipping falsy ids. */
  function MembersOf(rows: seq<Row>, k: Id): seq<Member> {
    if rows == [] then []
    else (if rows[0].projectId == k && HasEmployee(rows[0]) then [MemberOf(rows[0])] else []) + MembersOf(rows[1..], k)
  }

  /** Reference: the project name on the first row that mentions `k`. */
  function FirstName(rows: seq<Row>, k: Id): string
    requires k in ProjectIds(rows)
  {
    if rows[0].projectId == k then rows[0].projectName
    else
      assert k in ProjectIds(rows[1..]) by {
        var r :| r in rows && r.projectId == k;
        var i :| 0 <= i < |rows| && rows[i] == r;
        assert rows[1..][i - 1] == r;
      }
      FirstName(rows[1..], k)
  }

  /** What one reducer step does to one key. */
  lemma StepAt(acc: map<Id, Group>, r: Row, k: Id)
    ensures k in Step(acc, r) <==> k in acc || k == r.projectId
    ensures k != r.projectId && k in acc ==> Step(acc, r)[k] == acc[k]
    ensures k == r.projectId && k in acc ==>
              Step(acc, r)[k] == acc[k].(members := acc[k].members + MembersOf([r], k))
    ensures k == r.projectId && k !in acc ==>
              Step(acc, r)[k] == Group(k, r.projectName, MembersOf([r], k))
  {
  }

  /** The fold from any accumulator: a key already present keeps its group and
      gains the key's members in row order; a new key gets a group named after its
      first row. */
  lemma {:induction false} ReduceAt(acc: map<Id, Group>, rows: seq<Row>, k: Id)
    ensures k in Reduce(acc, rows) <==> k in acc || k in ProjectIds(rows)
    ensures k in acc ==> Reduce(acc, rows)[k] == acc[k].(members := acc[k].members + MembersOf(rows, k))
    ensures k !in acc && k in ProjectIds(rows) ==>
              Reduce(acc, rows)[k] == Group(k, FirstName(rows, k), MembersOf(rows, k))
    decreases |rows|
  {
    if rows != [] {
      var r := rows[0];
      var acc' := Step(acc, r);
      StepAt(acc, r, k);
      ReduceAt(acc', rows[1..], k);
      assert rows == [r] + rows[1..];
      assert ProjectIds(rows) == {r.projectId} + ProjectIds(rows[1..]);
      assert MembersOf(rows, k) == MembersOf([r], k) + MembersOf(rows[1..], k);
    }
  }

  /** The fold from the empty object `{}`. */
  lemma ReduceFromEmpty(rows: seq<Row>)
    ensures Reduce(map[], rows).Keys == ProjectIds(rows)
    ensures forall k :: k in ProjectIds(rows) ==>
              Reduce(map[], rows)[k] == Group(k, FirstName(rows, k), MembersOf(rows, k))
  {
    forall k ensures k in Reduce(map[], rows) <==> k in ProjectIds(rows) {
      ReduceAt(map[], rows, k);
    }
    forall k | k in ProjectIds(rows)
      ensures Reduce(map[], rows)[k] == Group(k, FirstName(rows, k), MembersOf(rows, k)) {
      ReduceAt(map[], rows, k);
    }
  }

  /** The whole response: one group per project id in the rows, in ascending id
      order, each named after the project's first row and listing the project's
      employees in row order. */
  function ProjectsWithEmployees(rows: seq<Row>): (groups: seq<Group>)
    ensures |groups| == |ProjectIds(rows)|
    ensures forall i :: 0 <= i < |groups| ==> groups[i].projectId in ProjectIds(rows)
    ensures forall k :: k in ProjectIds(rows) ==> exists i :: 0 <= i < |groups| && groups[i].projectId == k
    ensures forall i, j :: 0 <= i < j < |groups| ==> groups[i].projectId < groups[j].projectId
    ensures forall i :: 0 <= i < |groups| ==>
              && groups[i].projectName == FirstName(rows, groups[i].projectId)
              && groups[i].members == MembersOf(rows, groups[i].projectId)
  {
    ReduceFromEmpty(rows);
    ValuesAscending(Reduce(map[], rows));
    Values(Reduce(map[], rows))
  }

  /** Reference: a project whose rows carry no truthy employee id has no members. */
  lemma {:induction false} NoMembersWithoutEmployees(rows: seq<Row>, k: Id)
    requires forall i :: 0 <= i < |rows| && rows[i].projectId == k ==> !HasEmployee(rows[i])
    ensures MembersOf(rows, k) == []
  {
    if rows != [] {
      NoMembersWithoutEmployees(rows[1..], k);
    }
  }

  /** A project whose rows carry no truthy employee id is not left out of the
      response: it gets a group, with an empty list. */
  lemma EmployeelessProjectHasEmptyGroup(rows: seq<Row>, k: Id)
    requires k in ProjectIds(rows)
    requires forall i :: 0 <= i < |rows| && rows[i].projectId == k ==> !HasEmployee(rows[i])
    ensures exists i :: 0 <= i < |ProjectsWithEmployees(rows)|
                        && ProjectsWithEmployees(rows)[i].projectId == k
                        && ProjectsWithEmployees(rows)[i].members == []
  {
    var groups := ProjectsWithEmployees(rows);
    NoMembersWithoutEmployees(rows, k);
    var i :| 0 <= i < |groups| && groups[i].projectId == k;
    assert groups[i].members == [];
  }

  /** The distinct project ids in the order of their first row. */
  function FirstSeen(rows: seq<Row>): seq<Id>
    decreases |rows|
  {
    if rows == [] then []
    else
      var earlier := FirstSeen(rows[..|rows| - 1]);
      var k := rows[|rows| - 1].projectId;
      if k in earlier then earlier else earlier + [k]
  }

  /** The rows as `ORDER BY p.id` returns them. */
  predicate OrderedById(rows: seq<Row>) {
    forall i, j :: 0 <= i <= j < |rows| ==> rows[i].projectId <= rows[j].projectId
  }

  /** First-appearance order lists exactly the ids the rows mention. */
  lemma {:induction false} FirstSeenListsIds(rows: seq<Row>)
    ensures forall k :: k in FirstSeen(rows) <==> k in ProjectIds(rows)
    decreases |rows|
  {
    if rows != [] {
      var front := rows[..|rows| - 1];
      FirstSeenListsIds(front);
      assert rows == front + [rows[|rows| - 1]];
      assert ProjectIds(rows) == ProjectIds(front) + {rows[|rows| - 1].projectId};
    }
  }

  /** On rows ordered by id, first-appearance order is ascending. */
  lemma {:induction false} FirstSeenAscending(rows: seq<Row>)
    requires OrderedById(rows)
    ensures Ascending(FirstSeen(rows))
    decreases |rows|
  {
    if rows != [] {
      var front := rows[..|rows| - 1];
      var last := rows[|rows| - 1];
      var earlier := FirstSeen(front);
      FirstSeenAscending(front);
      FirstSeenListsIds(front);
      if last.projectId !in earlier {
        forall k | k in earlier ensures k < last.projectId {
          var r :| r in front && r.projectId == k;
          var i :| 0 <= i < |front| && front[i] == r;
          assert rows[i] == r;
        }
        AscendingAppend(earlier, last.projectId);
      }
    }
  }

  /** The project ids of the response, in response order. */
  function GroupIds(groups: seq<Group>): seq<nat> {
    seq(|groups|, i requires 0 <= i < |groups| => groups[i].projectId)
  }

  /** The response ids are exactly the ids the rows mention. */
  lemma GroupIdsListIds(rows: seq<Row>)
    ensures forall k :: k in GroupIds(ProjectsWithEmployees(rows)) <==> k in ProjectIds(rows)
  {
    forall k | k in ProjectIds(rows) ensures k in GroupIds(ProjectsWithEmployees(rows)) {
      GroupIdListed(rows, k);
    }
  }

  /** Each id the rows mention is among the response ids. */
  lemma GroupIdListed(rows: seq<Row>, k: Id)
    requires k in ProjectIds(rows)
    ensures k in GroupIds(ProjectsWithEmployees(rows))
  {
    var groups := ProjectsWithEmployees(rows);
    var i :| 0 <= i < |groups| && groups[i].projectId == k;
    assert GroupIds(groups)[i] == k;
  }

  /** The response lists the ids the rows mention in ascending order, whatever
      the order of the rows. */
  lemma GroupIdsAreSortedIds(rows: seq<Row>)
    ensures GroupIds(ProjectsWithEmployees(rows)) == SortedKeys(ProjectIds(rows))
  {
    var ids := GroupIds(ProjectsWithEmployees(rows));
    GroupIdsListIds(rows);
    assert Ascending(ids);
    SortedKeysUnique(ProjectIds(rows), ids);
  }

  /** On rows ordered by project id, the response lists projects in the order in
      which they first appear. */
  lemma OrderedRowsKeepFirstSeenOrder(rows: seq<Row>)
    requires OrderedById(rows)
    ensures GroupIds(ProjectsWithEmployees(rows)) == FirstSeen(rows)
  {
    GroupIdsAreSortedIds(rows);
    FirstSeenListsIds(rows);
    FirstSeenAscending(rows);
    SortedKeysUnique(ProjectIds(rows), FirstSeen(rows));
  }

  /** Two rows with different ids are first seen in row order. */
  lemma FirstSeenOfTwo(x: Row, y: Row)
    requires x.projectId != y.projectId
    ensures FirstSeen([x, y]) == [x.projectId, y.projectId]
  {
    var one := [x];
    assert one[..|one| - 1] == [];
    assert FirstSeen(one) == [x.projectId];
    var two := [x, y];
    assert two[..|two| - 1] == one;
  }

  /** The ids two rows mention. */
  lemma ProjectIdsOfTwo(x: Row, y: Row)
    ensures ProjectIds([x, y]) == {y.projectId, x.projectId}
  {
    assert [x, y][0] == x && [x, y][1] == y;
  }

  /** The enumeration order of two keys. */
  lemma SortedPair(a: nat, b: nat)
    requires a < b
    ensures SortedKeys({a, b}) == [a, b]
  {
    SortedKeysUnique({a, b}, [a, b]);
  }

  /** On two rows whose ids come out of order, the response is still in ascending
      id order, not in order of first appearance: `Object.values` sorts integer keys. */
  lemma UnorderedRowsComeBackAscending(x: Row, y: Row)
    requires y.projectId < x.projectId
    ensures FirstSeen([x, y]) == [x.projectId, y.projectId]
    ensures GroupIds(ProjectsWithEmployees([x, y])) == [y.projectId, x.projectId]
  {
    FirstSeenOfTwo(x, y);
    ProjectIdsOfTwo(x, y);
    GroupIdsAreSortedIds([x, y]);
    SortedPair(y.projectId, x.projectId);
  }
}

=== FILE: handlers.dfy ===
/** The request handlers that change the store, each as one atomic transition
    from the store before the request to a status and the store after it.
    Store failures are inputs: each handler takes a fault that says which of its
    statements, if any, the database refuses. */
module Handlers {
  import opened Common
  import opened Validation
  import opened Database

  /** The status sent (or not sent) to the client and the committed store. */
  datatype Response = Response(status: Status, after: Store)

  /** Failures of a handler that runs a lookup and then one write, without a transaction. */
  datatype QueryFault = QueryHealthy | LookupFails | WriteFails

  /** Failures of a delete transaction: begin, delete the join rows, delete the
      entity row, commit. */
  datatype TxFault = TxHealthy | BeginFails | LinksDeleteFails | RowDeleteFails | CommitFails

  /** The store after a transaction that deletes an employee and its join rows. */
  function WithoutEmployee(s: Store, id: Id): Store {
    Store(s.employees - {id}, s.projects, Delete(s.assignments, ByEmployee(id)))
  }

  /** The store after a transaction that deletes a project and its join rows. */
  function WithoutProject(s: Store, id: Id): Store {
    Store(s.employees, s.projects - {id}, Delete(s.assignments, ByProject(id)))
  }

  /** POST /projetos. `newId` is the key the database generates; the insert fails
      (and the error is thrown) when it is taken or when `insertFails`. */
  function CreateProject(s: Store, body: ProjectBody, newId: Id, insertFails: bool): (r: Response)
    ensures r.status == BadRequest <==>
              !(LengthWithin(body.name, NameMin, NameMax)
                && LengthWithin(body.description, DescriptionMin, DescriptionMax))
    ensures r.status != ServerError
    ensures r.status == Crashed <==>
              && LengthWithin(body.name, NameMin, NameMax)
              && LengthWithin(body.description, DescriptionMin, DescriptionMax)
              && (insertFails || newId in s.projects)
    ensures r.status != Ok ==> r.after == s
    ensures r.status == Ok <==> r.status != BadRequest && !insertFails && newId !in s.projects
    ensures r.status == Ok ==>
              && r.after.employees == s.employees
              && r.after.assignments == s.assignments
              && r.after.projects.Keys == s.projects.Keys + {newId}
              && r.after.projects[newId] == Project(body.name.s, body.description.s)
              && forall k :: k in s.projects ==> r.after.projects[k] == s.projects[k]
  {
    match ValidateProject(body)
    case NameRejected => Response(BadRequest, s)
    case DescriptionRejected => Response(BadRequest, s)
    case Accepted =>
      if insertFails || newId in s.projects then Response(Crashed, s)
      else Response(Ok, s.(projects := s.projects[newId := Project(body.name.s, body.description.s)]))
  }

  /** PUT /projetos/:id. An id with no row updates nothing and still succeeds. */
  function UpdateProject(s: Store, id: Id, body: ProjectBody, updateFails: bool): (r: Response)
    ensures r.status == BadRequest <==>
              !(LengthWithin(body.name, NameMin, NameMax)
                && LengthWithin(body.description, DescriptionMin, DescriptionMax))
    ensures r.status != ServerError
    ensures r.status == Crashed <==>
              && LengthWithin(body.name, NameMin, NameMax)
              && LengthWithin(body.description, DescriptionMin, DescriptionMax)
              && updateFails
    ensures r.status != Ok ==> r.after == s
    ensures r.status == Ok <==> r.status != BadRequest && !updateFails
    ensures r.status == Ok ==>
              && r.after.employees == s.employees
              && r.after.assignments == s.assignments
              && r.after.projects.Keys == s.projects.Keys
              && (id in s.projects ==> r.after.projects[id] == Project(body.name.s, body.description.s))
              && forall k :: k in s.projects && k != id ==> r.after.projects[k] == s.projects[k]
  {
    match ValidateProject(body)
    case NameRejected => Response(BadRequest, s)
    case DescriptionRejected => Response(BadRequest, s)
    case Accepted =>
      if updateFails then Response(Crashed, s)
      else if id !in s.projects then Response(Ok, s)
      else Response(Ok, s.(projects := s.projects[id := Project(body.name.s, body.description.s)]))
  }

  /** DELETE /funcionarios/:id. Every failure is rethrown after a rollback.
      There is no existence check: deleting an absent id succeeds. */
  function DeleteEmployee(s: Store, id: Id, fault: TxFault): (r: Response)
    ensures r.status == Ok <==> fault == TxHealthy
    ensures r.status != Ok ==> r.status == Crashed && r.after == s
    ensures r.status == Ok ==>
              && id !in r.after.employees
              && (forall i :: 0 <= i < |r.after.assignments| ==> r.after.assignments[i].employee != id)
              && (forall k :: k != id ==> (k in r.after.employees <==> k in s.employees))
              && (forall k :: k in r.after.employees ==> r.after.employees[k] == s.employees[k])
              && r.after.projects == s.projects
              && (forall a: Assignment :: a.employee != id ==>
                    multiset(r.after.assignments)[a] == multiset(s.assignments)[a])
  {
    if fault != TxHealthy then Response(Crashed, s)
    else Response(Ok, WithoutEmployee(s, id))
  }

  /** DELETE /projetos/:id. `None` stands for an id the request does not supply.
      Every failure inside the transaction is rolled back and answered with 500. */
  function DeleteProject(s: Store, id: Option<Id>, fault: TxFault): (r: Response)
    ensures id.None? ==> r == Response(BadRequest, s)
    ensures r.status == Ok <==> id.Some? && fault == TxHealthy
    ensures id.Some? && fault != TxHealthy ==> r == Response(ServerError, s)
    ensures r.status == Ok ==>
              && id.value !in r.after.projects
              && (forall i :: 0 <= i < |r.after.assignments| ==> r.after.assignments[i].project != id.value)
              && (forall k :: k != id.value ==> (k in r.after.projects <==> k in s.projects))
              && (forall k :: k in r.after.projects ==> r.after.projects[k] == s.projects[k])
              && r.after.employees == s.employees
              && (forall a: Assignment :: a.project != id.value ==>
                    multiset(r.after.assignments)[a] == multiset(s.assignments)[a])
  {
    match id
    case None => Response(BadRequest, s)
    case Some(p) =>
      if fault != TxHealthy then Response(ServerError, s)
      else Response(Ok, WithoutProject(s, p))
  }

  /** POST /atribuir-funcionario: look the pair up, refuse it if present, insert it
      otherwise. Whether the employee and the project exist is not checked. */
  function CreateAssignment(s: Store, f: Id, p: Id, fault: QueryFault): (r: Response)
    ensures r.status == BadRequest <==> fault != LookupFails && Assignment(f, p) in s.assignments
    ensures r.status == Ok <==> fault == QueryHealthy && Assignment(f, p) !in s.assignments
    ensures r.status == ServerError <==>
              fault == LookupFails || (fault == WriteFails && Assignment(f, p) !in s.assignments)
    ensures r.status != Crashed
    ensures r.status != Ok ==> r.after == s
    ensures r.status == Ok ==>
              && r.after.employees == s.employees
              && r.after.projects == s.projects
              && multiset(r.after.assignments) == multiset(s.assignments) + multiset{Assignment(f, p)}
              && |r.after.assignments| == |s.assignments| + 1
              && r.after.assignments[..|s.assignments|] == s.assignments
  {
    SelectPair(s.assignments, f, p);
    if fault == LookupFails then Response(ServerError, s)
    else if |Select(s.assignments, ByPair(f, p))| > 0 then Response(BadRequest, s)
    else if fault == WriteFails then Response(ServerError, s)
    else
      assert fault == QueryHealthy;
      assert Assignment(f, p) !in s.assignments;
      Response(Ok, s.(assignments := s.assignments + [Assignment(f, p)]))
  }

  /** DELETE /atribuir-funcionario/:id_f/:id_p with the lookup failure answered by
      the 500 its handler was written to send. A failed delete is rethrown. */
  function DeleteAssignment(s: Store, f: Id, p: Id, fault: QueryFault): (r: Response)
    ensures fault == LookupFails ==> r == Response(ServerError, s)
    ensures r.status == BadRequest <==> fault != LookupFails && Assignment(f, p) !in s.assignments
    ensures r.status == Ok <==> fault == QueryHealthy && Assignment(f, p) in s.assignments
    ensures r.status == Crashed <==> fault == WriteFails && Assignment(f, p) in s.assignments
    ensures r.status != Ok ==> r.after == s
    ensures r.status == Ok ==>
              && r.after.employees == s.employees
              && r.after.projects == s.projects
              && Assignment(f, p) !in r.after.assignments
              && (forall a :: a != Assignment(f, p) ==>
                    multiset(r.after.assignments)[a] == multiset(s.assignments)[a])
  {
    SelectPair(s.assignments, f, p);
    if fault == LookupFails then Response(ServerError, s)
    else if |Select(s.assignments, ByPair(f, p))| == 0 then Response(BadRequest, s)
    else if fault == WriteFails then Response(Crashed, s)
    else
      assert fault == QueryHealthy;
      Response(Ok, s.(assignments := Delete(s.assignments, ByPair(f, p))))
  }

  /** The same handler as the source writes it. It reads `results.length` before
      it looks at the error, and `results` is undefined when the lookup fails, so
      a failed lookup throws: the 500 reply that follows is never sent. A failed
      delete is rethrown from a rollback. */
  function DeleteAssignmentAsWritten(s: Store, f: Id, p: Id, fault: QueryFault): (r: Response)
    ensures r.status != ServerError
    ensures r.status == Crashed <==>
              fault == LookupFails || (fault == WriteFails && Assignment(f, p) in s.assignments)
    ensures r.status == BadRequest <==> fault != LookupFails && Assignment(f, p) !in s.assignments
    ensures r.status == Ok <==> fault == QueryHealthy && Assignment(f, p) in s.assignments
    ensures r.status != Ok ==> r.after == s
    ensures r.status == Ok ==>
              && r.after.employees == s.employees
              && r.after.projects == s.projects
              && Assignment(f, p) !in r.after.assignments
              && (forall a :: a != Assignment(f, p) ==>
                    multiset(r.after.assignments)[a] == multiset(s.assignments)[a])
  {
    SelectPair(s.assignments, f, p);
    if fault == LookupFails then Response(Crashed, s)
    else
      var found := Select(s.assignments, ByPair(f, p));
      if |found| == 0 then Response(BadRequest, s)
      else if fault == WriteFails then Response(Crashed, s)
      else
        assert fault == QueryHealthy;
        Response(Ok, s.(assignments := Delete(s.assignments, ByPair(f, p))))
  }

  /** Once the lookup has succeeded, the handler as written and the corrected one
      give the same reply and the same store: the two differ only on the lookup
      failure. */
  lemma AsWrittenAgreesAfterLookup(s: Store, f: Id, p: Id, fault: QueryFault)
    requires fault != LookupFails
    ensures DeleteAssignmentAsWritten(s, f, p, fault) == DeleteAssignment(s, f, p, fault)
  {
  }

  /** POST and PUT apply one rule: a body is refused by one exactly when it is
      refused by the other, and a refused body leaves the store alone. */
  lemma SameRuleForCreateAndUpdate(s: Store, body: ProjectBody, newId: Id, id: Id, insertFails: bool, updateFails: bool)
    ensures CreateProject(s, body, newId, insertFails).status == BadRequest
            <==> UpdateProject(s, id, body, updateFails).status == BadRequest
    ensures CreateProject(s, body, newId, insertFails).status == BadRequest
            ==> CreateProject(s, body, newId, insertFails).after == s
                && UpdateProject(s, id, body, updateFails).after == s
  {
  }

  /** Creating a pair that is not stored, then creating it again, stores it once:
      the second request is refused and changes nothing. */
  lemma CreateAssignmentTwice(s: Store, f: Id, p: Id, secondFault: QueryFault)
    requires Assignment(f, p) !in s.assignments
    requires secondFault != LookupFails
    ensures var first := CreateAssignment(s, f, p, QueryHealthy);
            var second := CreateAssignment(first.after, f, p, secondFault);
            && first.status == Ok
            && second == Response(BadRequest, first.after)
            && multiset(second.after.assignments)[Assignment(f, p)] == 1
  {
    var first := CreateAssignment(s, f, p, QueryHealthy);
    assert multiset(first.after.assignments)[Assignment(f, p)] == 1;
    assert Assignment(f, p) in first.after.assignments by {
      assert Assignment(f, p) in multiset(first.after.assignments);
    }
  }

  /** The project and employee handlers keep the join table free of duplicate pairs. */
  lemma EntityHandlersPreserveNoDuplicates(s: Store, body: ProjectBody, id: Id, fail: bool, tf: TxFault)
    requires NoDuplicates(s.assignments)
    ensures NoDuplicates(CreateProject(s, body, id, fail).after.assignments)
    ensures NoDuplicates(UpdateProject(s, id, body, fail).after.assignments)
    ensures NoDuplicates(DeleteEmployee(s, id, tf).after.assignments)
    ensures NoDuplicates(DeleteProject(s, Some(id), tf).after.assignments)
  {
    DeletePreservesNoDuplicates(s.assignments, ByEmployee(id));
    DeletePreservesNoDuplicates(s.assignments, ByProject(id));
  }

  /** Assigning keeps the join table free of duplicate pairs: that is what its lookup is for. */
  lemma CreateAssignmentPreservesNoDuplicates(s: Store, f: Id, p: Id, fault: QueryFault)
    requires NoDuplicates(s.assignments)
    ensures NoDuplicates(CreateAssignment(s, f, p, fault).after.assignments)
  {
    var r := CreateAssignment(s, f, p, fault);
    if r.status == Ok {
      forall a ensures multiset(r.after.assignments)[a] <= 1 {
        assert multiset(s.assignments)[a] <= 1;
        if a == Assignment(f, p) {
          assert multiset(s.assignments)[a] == 0;
        }
      }
    }
  }

  /** Unassigning keeps the join table free of duplicate pairs. */
  lemma DeleteAssignmentPreservesNoDuplicates(s: Store, f: Id, p: Id, fault: QueryFault)
    requires NoDuplicates(s.assignments)
    ensures NoDuplicates(DeleteAssignment(s, f, p, fault).after.assignments)
  {
    DeletePreservesNoDuplicates(s.assignments, ByPair(f, p));
  }

  /** On a duplicate-free table, a successful unassignment removes exactly one row. */
  lemma DeleteAssignmentRemovesOneRow(s: Store, f: Id, p: Id)
    requires NoDuplicates(s.assignments)
    requires Assignment(f, p) in s.assignments
    ensures var r := DeleteAssignment(s, f, p, QueryHealthy);
            && r.status == Ok
            && multiset(r.after.assignments) == multiset(s.assignments) - multiset{Assignment(f, p)}
            && |r.after.assignments| == |s.assignments| - 1
  {
    var r := DeleteAssignment(s, f, p, QueryHealthy);
    var pair := Assignment(f, p);
    assert multiset(s.assignments)[pair] == 1 by {
      assert pair in multiset(s.assignments);
      assert multiset(s.assignments)[pair] <= 1;
    }
    RemoveOnlyCopy(s.assignments, r.after.assignments, pair);
  }

  /** The lookup failure of the unassignment handler: the code as written throws,
      where the reply it was written to send is a 500. Both leave the store alone. */
  lemma LookupFailureCrashesAsWritten(s: Store, f: Id, p: Id)
    ensures DeleteAssignmentAsWritten(s, f, p, LookupFails).status == Crashed
    ensures DeleteAssignment(s, f, p, LookupFails).status == ServerError
    ensures DeleteAssignmentAsWritten(s, f, p, LookupFails).after == s
  {
  }
}

=== FILE: keys.dfy ===
/** The order in which JavaScript enumerates the integer keys of an object:
    `Object.values` lists array-index keys in ascending numeric order, whatever
    the order in which they were added. */
module Keys {

  /** Strictly ascending, hence without repetition. */
  predicate Ascending(xs: seq<nat>) {
    forall i, j :: 0 <= i < j < |xs| ==> xs[i] < xs[j]
  }

  /** `m` is the least element of `keys`. */
  predicate IsLeast(m: nat, keys: set<nat>) {
    m in keys && forall k :: k in keys ==> m <= k
  }

  /** Every non-empty set of naturals has a least element. */
  lemma {:induction false} LeastExists(keys: set<nat>)
    requires keys != {}
    ensures exists m :: IsLeast(m, keys)
  {
    var x :| x in keys;
    var rest := keys - {x};
    if rest != {} {
      LeastExists(rest);
      var m :| IsLeast(m, rest);
      if x < m {
        forall k | k in keys ensures x <= k {
          if k != x { assert k in rest; }
        }
        assert IsLeast(x, keys);
      } else {
        forall k | k in keys ensures m <= k {
          if k != x { assert k in rest; }
        }
        assert IsLeast(m, keys);
      }
    } else {
      forall k | k in keys ensures x <= k {
        assert k !in rest;
      }
      assert IsLeast(x, keys);
    }
  }

  /** The keys of an object in enumeration order. */
  function SortedKeys(keys: set<nat>): (r: seq<nat>)
    ensures Ascending(r)
    ensures forall k :: k in r <==> k in keys
    ensures |r| == |keys|
    decreases keys
  {
    if keys == {} then []
    else
      LeastExists(keys);
      var m :| IsLeast(m, keys);
      [m] + SortedKeys(keys - {m})
  }

  /** The head of an ascending listing is its least element, and the tail lists
      everything else. */
  lemma AscendingSplit(a: seq<nat>)
    requires Ascending(a) && a != []
    ensures IsLeast(a[0], set k | k in a)
    ensures forall k :: k in a[1..] <==> k in a && k != a[0]
  {
    forall k | k in a ensures a[0] <= k {
      var i :| 0 <= i < |a| && a[i] == k;
    }
    forall k | k in a && k != a[0] ensures k in a[1..] {
      var i :| 0 <= i < |a| && a[i] == k;
      assert a[1..][i - 1] == k;
    }
  }

  /** A key above every listed key extends an ascending listing. */
  lemma AscendingAppend(xs: seq<nat>, k: nat)
    requires Ascending(xs)
    requires forall x :: x in xs ==> x < k
    ensures Ascending(xs + [k])
  {
    var ys := xs + [k];
    forall i, j | 0 <= i < j < |ys| ensures ys[i] < ys[j] {
      assert ys[i] == xs[i];
      if j == |xs| {
        assert xs[i] in xs;
      } else {
        assert ys[j] == xs[j];
      }
    }
  }

  /** The first element of a non-empty listing is listed. */
  lemma HeadIsListed(b: seq<nat>)
    requires b != []
    ensures b[0] in b
  {
  }

  /** A set has one ascending listing only. */
  lemma {:induction false} AscendingUnique(a: seq<nat>, b: seq<nat>)
    requires Ascending(a) && Ascending(b)
    requires forall k :: k in a <==> k in b
    ensures a == b
    decreases |a|
  {
    if a == [] {
      if b != [] {
        HeadIsListed(b);
        assert false;
      }
    } else {
      assert a[0] in b;
      AscendingSplit(a);
      AscendingSplit(b);
      assert a[0] == b[0];
      AscendingUnique(a[1..], b[1..]);
      assert a == [a[0]] + a[1..];
      assert b == [b[0]] + b[1..];
    }
  }

  /** `SortedKeys` is the only ascending listing of its set. */
  lemma SortedKeysUnique(keys: set<nat>, xs: seq<nat>)
    requires Ascending(xs)
    requires forall k :: k in xs <==> k in keys
    ensures SortedKeys(keys) == xs
  {
    AscendingUnique(SortedKeys(keys), xs);
  }
}

=== FILE: validation.dfy ===
/** The input check that guards both POST /projetos and PUT /projetos/:id. */
module Validation {

  /** A field of a JSON-decoded request body, as JavaScript sees it.
      A field the body does not carry reads as `Undefined`; numbers are integers here. */
  datatype JsValue =
    | Undefined
    | Null
    | Bool(b: bool)
    | Num(n: int)
    | Str(s: string)
    | Obj          // an object or an array

  /** The fields of a project body that the check looks at. */
  datatype ProjectBody = ProjectBody(name: JsValue, description: JsValue)

  const NameMin: nat := 5
  const NameMax: nat := 45
  const DescriptionMin: nat := 10
  const DescriptionMax: nat := 100

  /** JavaScript truthiness: `!v` is true exactly when this is false. */
  predicate Truthy(v: JsValue) {
    match v
    case Undefined => false
    case Null => false
    case Bool(b) => b
    case Num(n) => n != 0
    case Str(s) => s != ""
    case Obj => true
  }

  /** `String.prototype.length`: the number of UTF-16 code units, so a character
      above U+FFFF counts twice. */
  function Utf16Length(s: string): (n: nat)
    ensures |s| <= n <= 2 * |s|
    ensures n == 0 <==> s == []
    ensures (forall i :: 0 <= i < |s| ==> s[i] as int <= 0xFFFF) ==> n == |s|
  {
    if s == [] then 0
    else (if s[0] as int > 0xFFFF then 2 else 1) + Utf16Length(s[1..])
  }

  /** One character is one code unit, or a surrogate pair when it lies above
      the Basic Multilingual Plane. */
  lemma Utf16LengthOfChar(c: char)
    ensures Utf16Length([c]) == if c as int > 0xFFFF then 2 else 1
  {
    assert [c][1..] == [];
  }

  /** The code-unit count of a concatenation is the sum of the counts. */
  lemma {:induction false} Utf16LengthAppend(a: string, b: string)
    ensures Utf16Length(a + b) == Utf16Length(a) + Utf16Length(b)
    decreases |a|
  {
    if a == [] {
      assert a + b == b;
    } else {
      Utf16LengthAppend(a[1..], b);
      assert (a + b)[1..] == a[1..] + b;
      assert (a + b)[0] == a[0];
    }
  }

  /** The guard exactly as the handlers write it:
      `!v || typeof v !== "string" || v.length < lo || v.length > hi`. */
  predicate FieldRejected(v: JsValue, lo: nat, hi: nat) {
    || !Truthy(v)
    || !v.Str?
    || Utf16Length(v.s) < lo
    || Utf16Length(v.s) > hi
  }

  /** The documented rule: the field is a string whose length lies in [lo, hi]. */
  predicate LengthWithin(v: JsValue, lo: nat, hi: nat) {
    v.Str? && lo <= Utf16Length(v.s) <= hi
  }

  /** Which message the handler answers with. */
  datatype Verdict = Accepted | NameRejected | DescriptionRejected

  /** The two checks in order: the name first, then the description. */
  function ValidateProject(body: ProjectBody): (v: Verdict)
    ensures v == Accepted <==>
              LengthWithin(body.name, NameMin, NameMax)
              && LengthWithin(body.description, DescriptionMin, DescriptionMax)
    ensures !LengthWithin(body.name, NameMin, NameMax) ==> v == NameRejected
    ensures LengthWithin(body.name, NameMin, NameMax)
            && !LengthWithin(body.description, DescriptionMin, DescriptionMax)
            ==> v == DescriptionRejected
  {
    if FieldRejected(body.name, NameMin, NameMax) then NameRejected
    else if FieldRejected(body.description, DescriptionMin, DescriptionMax) then DescriptionRejected
    else Accepted
  }

  /** The guard and the documented rule agree whenever the lower bound is positive:
      the falsy empty string is already too short. */
  lemma GuardIsLengthRule(v: JsValue, lo: nat, hi: nat)
    requires lo > 0
    ensures FieldRejected(v, lo, hi) <==> !LengthWithin(v, lo, hi)
  {
  }

  /** A string of ASCII letters and spaces has one code unit per character. */
  lemma BasicPlaneLength(s: string)
    requires forall i :: 0 <= i < |s| ==> s[i] as int < 128
    ensures Utf16Length(s) == |s|
  {
  }

  /** A name of three characters is refused, whatever the description. */
  lemma ShortNameRejected(description: JsValue)
    ensures ValidateProject(ProjectBody(Str("abc"), description)) == NameRejected
  {
    BasicPlaneLength("abc");
  }

  /** A six-character name with a ten-character description is accepted. */
  lemma ValidBodyAccepted()
    ensures ValidateProject(ProjectBody(Str("abcdef"), Str("ten chars!"))) == Accepted
  {
    BasicPlaneLength("abcdef");
    BasicPlaneLength("ten chars!");
    assert LengthWithin(Str("abcdef"), NameMin, NameMax);
    assert LengthWithin(Str("ten chars!"), DescriptionMin, DescriptionMax);
  }
}
